=== FILE: README.md ===
# Ramblers headline extraction — a Dafny model

The app lists high-school sports headlines taken from the school's news page,
and flags the ones that are game recaps. There are two extractors:

- **The streaming parser** (`app/lib/scraper.ts`). An `ArticleParser` object
  has element, text and end-tag callbacks, and is handed to an HTML rewriter.
  - It keeps a scratch record, `currentArticle`. An `<article>` resets it.
  - Matched `a[href]`, `time` and `span[class]` elements fill its fields one by one.
  - At `</article>`, the record is appended to `articles` if team, headline,
    lastUpdated and urlPath are all non-empty.
  - `containsRecap` is a case-insensitive search for "recap" in the whole href.
- **The DOM extractor** (`app/lib/clientScraper.ts`). Every matched
  `article[data-vnn-news-feed-item]` becomes exactly one record.
  - Team and headline are trimmed text.
  - lastUpdated is the `datetime` attribute.
  - urlPath is the pathname of the title link.
  - A missing or empty value becomes "N/A".
  - `containsRecap` searches only the path, not the whole href.

Modules:

- `Wrappers`: `Option`.
- `Strings`: `trim`, `toLowerCase`, `includes`, and the delimiter scan used to cut URLs apart.
- `Url`: `new URL(href).pathname` for absolute URLs. The href is read as the URL parser reads it: C0 controls and spaces stripped from both ends, tabs and newlines removed, and the extra slashes skipped after a special scheme other than `file`.
- `Scraper`: the parser with every pushed record copied, so a record is fixed once emitted. This is the corrected parser of the Findings. It has the state as values (`Step`, `Run`), the `ArticleParser` class proved against them, and the driver.
- `ScraperHeap`: the same parser under JavaScript reference semantics. It is needed because `articles.push(this.currentArticle)` stores a reference to the scratch object, not a copy (see Findings).
- `ClientScraper`: the per-article mapping of the DOM extractor.

## Model

| member | source | states |
|---|---|---|
| Strings.Trim | app/lib/clientScraper.ts:24 | `trim` returns the infix of the input that has only whitespace before and after it. Neither end of the result is whitespace. |
| Strings.TrimEmptyIff | app/lib/clientScraper.ts:24 | Trimming yields the empty string exactly when the input is all whitespace. |
| Strings.TrimIdempotent | app/lib/clientScraper.ts:28 | Trimming a trimmed string changes nothing. |
| Strings.Lower | app/lib/scraper.ts:23 | `toLowerCase` keeps the length and lowers every upper-case letter. Every other character stays as it is. |
| Strings.LowerAppend | app/lib/clientScraper.ts:40 | Lower-casing distributes over concatenation. |
| Strings.Contains | app/lib/scraper.ts:23 | `includes` never finds a needle longer than the haystack, and always finds the empty needle. |
| Strings.ContainsIff | app/lib/scraper.ts:23 | `includes` holds exactly when the needle occurs at some index of the haystack. |
| Strings.ContainsInSuffix | app/lib/scraper.ts:23 | A match in a suffix is a match in the whole string. |
| Strings.PrefixBefore | app/lib/scraper.ts:22 | The delimiter scan returns the longest prefix free of the stop characters. That prefix is followed by a stop or by the end. |
| Url.Pathname | app/lib/scraper.ts:22 | `new URL(href).pathname` is empty or starts with `/`, and never contains `?` or `#`. |
| Url.PathnameInHref | app/lib/scraper.ts:22 | For the empty path of a special scheme the pathname is `/`. Otherwise it is the text of the parsed input that starts right after the authority and runs to the end or to a `?` or `#`. |
| Url.PathnameIgnoresSuffix | app/lib/clientScraper.ts:39 | Appending a query or a fragment to a URL that does not end in a C0 control or space leaves its pathname unchanged. |
| Url.PathnameOfHostAndPath | app/lib/clientScraper.ts:39 | The pathname of `scheme://host/path` is exactly `/path`: scheme and host are stripped. The host must be non-empty for a scheme that skips slashes, and must hold no `:`, so that it carries neither a port nor a drive letter. |
| Url.ExtraSlashesSkipped | app/lib/scraper.ts:22 | After `http:` and the other special schemes except `file`, a third slash changes nothing. `https:///news/recap` has the host `news` and the pathname `/recap`. |
| Url.SurroundingSpaceIgnored | app/lib/scraper.ts:22 | C0 controls and spaces around an href change neither whether it parses nor its pathname. |
| Url.TabOrNewlineIgnored | app/lib/scraper.ts:22 | A tab or newline inside an href changes neither whether it parses nor its pathname. |
| Scraper.IsValidArticle | app/lib/scraper.ts:46-52 | A valid record has team, headline, lastUpdated and urlPath set. The empty record is never valid. |
| Scraper.ValidExactlyWhenCastComplete | app/lib/scraper.ts:42-52 | On a coherent record, `isValidArticle` holds exactly when the four fields are set and the cast `as Article` gives a complete record. |
| Scraper.ToArticle | app/lib/scraper.ts:42 | `currentArticle as Article` on a valid scratch record carries every field over, and the result has all four string fields non-empty. |
| Scraper.ElementStep | app/lib/scraper.ts:14-34 | `article` resets the record. `a[href]`, `time` and `span[class]` each write only their own fields. Every other element leaves the record as it was. |
| Scraper.Step | app/lib/scraper.ts:14-44 | In the copying parser, the scratch record keeps `urlPath` and `containsRecap` set together. Text chunks change nothing. Elements never touch `articles`. |
| Scraper.Run | app/lib/scraper.ts:61-68 | In the copying parser, the events of the page are taken in document order, and the scratch record stays coherent. |
| Scraper.StepPreservesInvariant | app/lib/scraper.ts:14-44 | In the copying parser, every callback keeps all emitted records complete. It also keeps `urlPath` and `containsRecap` set together. |
| Scraper.RunPreservesInvariant | app/lib/scraper.ts:46-52 | In the copying parser, every record a whole stream emits passes `isValidArticle`. The source keeps this only on the streams of `ScraperHeap.RunAgrees`. |
| Scraper.StepAppendOnly | app/lib/scraper.ts:40-44 | One event appends at most one record. It appends one exactly when the event is `</article>` and the scratch record is valid, and then it appends that record. A closing never touches the scratch record. |
| Scraper.RunAppendOnly | app/lib/scraper.ts:40-44 | `articles` only grows: the old output stays a prefix. It grows by at most one record per `</article>`. |
| Scraper.RunConcat | app/lib/scraper.ts:62-68 | Feeding the stream in two parts gives the same state as feeding it in one. |
| Scraper.HrefHasRecap | app/lib/scraper.ts:23 | The streaming parser's `containsRecap` holds exactly when "recap" occurs somewhere in the lower-cased whole href. |
| Scraper.RecapSeesWholeHref | app/lib/scraper.ts:20-23 | For an href that does not end in a C0 control or space, "recap" in its query leaves `urlPath` unchanged but makes `containsRecap` true. |
| Scraper.ArticleParser.constructor | app/lib/scraper.ts:10-12 | A new parser has no articles and an empty scratch record. |
| Scraper.ArticleParser.Element | app/lib/scraper.ts:14-34 | See the notes after this table. In the copying parser, `articles` holds copies, so `element` never changes them. |
| Scraper.ArticleParser.Text | app/lib/scraper.ts:36-38 | Text chunks change nothing. |
| Scraper.ArticleParser.EndTag | app/lib/scraper.ts:40-44 | `</article>` with a valid scratch record appends exactly that record. Any other closing leaves `articles` unchanged. No closing changes the scratch record. |
| Scraper.ArticleParser.Process | app/lib/scraper.ts:61-68 | Dispatching a stream to the callbacks in document order yields the stream's `Run`. The old output stays a prefix, and at most one record is added per `</article>`. |
| Scraper.ScrapeArticles | app/lib/scraper.ts:56-71 | In the copying parser, a fresh parser fed the page returns exactly what the stream emits, and every record it returns is complete. |
| ScraperHeap.HeapStep | app/lib/scraper.ts:14-44 | As the source runs: `article` allocates a fresh current object. Other elements write only the current object. A valid `</article>` pushes a reference to the current object, which stays current. Anything else changes nothing. What the element writes into the current object is stated by `ScraperHeap.HeapStepWrites`. |
| ScraperHeap.HeapStepWrites | app/lib/scraper.ts:20-33 | As the source runs, any element other than `article` sets the current object to what `ElementStep` makes of it: the same per-tag writes as the copying parser. |
| ScraperHeap.HeapRun | app/lib/scraper.ts:61-68 | As the source runs a stream, objects are only added and `articles` only grows. |
| ScraperHeap.Visible | app/lib/scraper.ts:70 | Reading `parser.articles` under reference semantics yields one record per pushed reference, and record `i` is the current contents of the object that reference `i` names. |
| ScraperHeap.EmittedRecordInvalidated | app/lib/scraper.ts:42 | Under reference semantics, a `time` without `datetime` after a complete article empties that article's `lastUpdated`. The returned record then fails `isValidArticle`. Copying the record keeps it complete. |
| ScraperHeap.StepAgrees | app/lib/scraper.ts:14-44 | One event keeps the reference model and the value model in step, unless it writes through a reference that was already pushed. |
| ScraperHeap.RunAgrees | app/lib/scraper.ts:17-42 | On streams where no field write comes between `</article>` and the next `<article>`, the records the reference model returns are the value model's records. |
| ClientScraper.OrNotAvailable | app/lib/clientScraper.ts:24 | `x \|\| "N/A"` is never empty. It is "N/A" exactly when the value is missing, empty or "N/A", and otherwise it is the value. |
| ClientScraper.FullUrl | app/lib/clientScraper.ts:38 | `fullUrl` is never empty. It is "N/A" exactly when there is no title, the title is not an anchor, or its href is empty or the literal "N/A". Otherwise it is the href. |
| ClientScraper.PathHasRecap | app/lib/clientScraper.ts:40 | The recap test holds exactly when "recap" occurs in the lower-cased path. It never holds for "N/A". |
| ClientScraper.UrlPath | app/lib/clientScraper.ts:38-39 | `urlPath` is "N/A", or empty, or starts with `/`. |
| ClientScraper.ExtractArticle | app/lib/clientScraper.ts:21-49 | See the notes after this table. |
| ClientScraper.ScrapeHeadlines | app/lib/clientScraper.ts:19-51 | Exactly one record per matched article, in document order. Record i is the extraction of article i. |
| ClientScraper.HeadlineRule | app/lib/clientScraper.ts:23-24 | `headline` is "N/A" when the title element is missing or its text is only whitespace. Otherwise it is the trimmed text, and neither of its ends is whitespace. |
| ClientScraper.TeamRule | app/lib/clientScraper.ts:27-28 | `team` follows the same rule, applied to the first meta span. |
| ClientScraper.LastUpdatedRule | app/lib/clientScraper.ts:31-32 | `lastUpdated` is the untrimmed `datetime`. It is "N/A" exactly when the time element or the attribute is missing, or the attribute is empty. |
| ClientScraper.UrlPathRule | app/lib/clientScraper.ts:35-39 | `urlPath` is "N/A" exactly when there is no link URL: no title element, a title that is not an anchor, or an href that is empty or the literal "N/A". Otherwise it is the pathname of the href. |
| ClientScraper.RecapRule | app/lib/clientScraper.ts:40 | `containsRecap` holds exactly when "recap" occurs in the lower-cased `urlPath`. It is never true when `urlPath` is "N/A". |
| ClientScraper.QueryNeverMarksRecap | app/lib/clientScraper.ts:38-40 | For a link that does not end in a C0 control or space, "recap" in its query changes neither `urlPath` nor `containsRecap`. The streaming parser does not behave this way. |

Notes on two rows:

- `Scraper.ArticleParser.Element`:
  - `articles` is never touched.
  - `article` resets the scratch record.
  - `a[href]` sets `urlPath`, `containsRecap` and `headline`, and nothing else.
  - `time` sets `lastUpdated` to `datetime`, or to "" when the attribute is missing.
  - `span[class]` sets `team`.
  - Any other element changes nothing.
- `ClientScraper.ExtractArticle`:
  - `headline`, `team` and `lastUpdated` are never empty.
  - A missing title makes `headline` and `urlPath` "N/A" and `containsRecap` false.
  - `containsRecap` implies that `urlPath` is a real path.
  - `lastUpdated` is the untrimmed `datetime`, or "N/A" when the time element or the attribute is missing, or the attribute is empty.

## Left out

- Fetching the page (`fetch`) and logging the HTML (`console.log`) are not modelled. The page reaches the model already split into events, or already parsed into article elements.
- The HTML rewriter and `DOMParser` are not modelled.
  - Selector matching and HTML tokenising are not modelled. The parser is given the events of the matched elements in document order. The DOM extractor is given each matched article through the three queries it makes.
  - The source registers `ArticleParser` as an element handler of the Cloudflare `HTMLRewriter`. Such a handler only receives the `element`, `comments` and `text` callbacks; end tags arrive only through `element.onEndTag`. That rewriter's `Element` also has no `textContent`. So the source as written never calls `endTag`, and never gets a text for `headline` or `team`.
  - The model assumes a host that hands every `</article>` to `endTag` and passes an element's text content (`text` of an `Open` event). The input of the Finding rests on the same assumption.
- Scraper.ArticleParser: stores a copy of each valid record in `articles`, while the source stores a reference to the scratch object. On streams with a field write between `</article>` and the next `<article>`, the source's records can still change after they were emitted; `ScraperHeap` models that.
- Scraper.ArticleParser.Process: does not model the rewriter's asynchrony or its buffering. Events are handled one at a time, in order.
- Url.Pathname: covers only hierarchical URLs of the form `scheme://authority/path?query#fragment`. Not modelled:
  - removal of dot segments (`/a/../b`);
  - percent-encoding of spaces and other characters in the path;
  - backslashes, which special URLs treat as slashes;
  - host validation: an authority that holds an invalid host, or only userinfo or a port, makes the source throw;
  - port validation: a port that holds a non-digit or exceeds 65535 makes the source throw, while `Url.IsAbsoluteUrl` accepts it (`http://x:abc/a`);
  - Windows drive letters in `file` URLs: the source moves a drive-letter host into the path (`file://C:/x` has the pathname `/C:/x`, and `file:///C|/x` too), while the model reads `C:` as the host and keeps `|`;
  - special URLs with fewer than two slashes (`https:x`);
  - opaque-path URLs such as `mailto:`.
- Url.IsAbsoluteUrl: is a precondition wherever the source calls `new URL(href)`. An href that `new URL` rejects makes the source throw, and that case is not modelled. `IsAbsoluteUrl` is weaker than the source's test: it also accepts the invalid hosts and ports listed under `Url.Pathname`.
- Url.PathnameIgnoresSuffix: requires a URL that does not end in a C0 control or space. Otherwise the source keeps that character in front of the query, percent-encoded, and the pathname changes.
- Strings.Lower: lowers only ASCII letters. `toLowerCase` also maps non-ASCII letters. This never matters for the search for the ASCII word "recap".
- Pages beyond the first, page links and the page count are not part of this model. Neither are the routes and UI (`app/routes/*`), sessions, authentication and the database (`app/lib/session.ts`, `database/*`), or the worker entry point (`workers/app.ts`).

## Findings

| source | as written | input that shows it | evidently intended | confidence | as-written member | corrected member |
|---|---|---|---|---|---|---|
| app/lib/scraper.ts:42 | `articles.push(this.currentArticle as Article)` pushes the scratch object itself. Only an `article` element replaces it (line 17). So `time`, `a` and `span` writes that arrive after `</article>` and before the next `<article>` change a record that was already returned. | A complete article, then `</article>`, then a `time.updated` element without `datetime`. The returned record's `lastUpdated` becomes "" and it no longer passes `isValidArticle`. | Push a copy, so that every returned record stays as it was validated and always passes `isValidArticle`. | high, not executed | ScraperHeap.EmittedRecordInvalidated | Scraper.RunPreservesInvariant |

=== FILE: client_scraper.dfy ===
/**
  The DOM-based headline extraction (`scrapeHeadlines`). The page has already
  been parsed. Every matched `article[data-vnn-news-feed-item]` is mapped to
  one record, and a missing or empty field falls back to "N/A".
*/
module ClientScraper {
  import opened Wrappers
  import opened Strings
  import opened Url

  /**
    The `.article-title` element: its text content, and its `href` property
    when it is an anchor. For an anchor without an `href` attribute that
    property is the empty string. For any other element it is absent.
  */
  datatype TitleElement = TitleElement(text: string, href: Option<string>)

  /** The `time.updated` element: its `datetime` attribute, if present. */
  datatype TimeElement = TimeElement(datetime: Option<string>)

  /**
    A matched article, as seen through the queries the extraction makes:
    `.article-title`, the text of `.article-meta span:first-child`, and
    `time.updated`. Each may be missing.
  */
  datatype ArticleElement = ArticleElement(
    title: Option<TitleElement>,
    teamSpan: Option<string>,
    time: Option<TimeElement>)

  /** An extracted record (`ArticleData`). */
  datatype ArticleData = ArticleData(
    team: string,
    headline: string,
    lastUpdated: string,
    urlPath: string,
    containsRecap: bool)

  const NotAvailable: string := "N/A"

  /**
    `value || "N/A"` over a value that may be missing: a missing or empty
    value becomes "N/A", and any other value is kept as it is.
  */
  function OrNotAvailable(o: Option<string>): (r: string)
    ensures r != ""
    ensures r == NotAvailable <==> o.None? || o.value == "" || o.value == NotAvailable
    ensures r != NotAvailable ==> o == Some(r)
  {
    if o.Some? && o.value != "" then o.value else NotAvailable
  }

  /** `el?.textContent?.trim()`. */
  function TrimmedText(o: Option<string>): Option<string> {
    if o.Some? then Some(Trim(o.value)) else None
  }

  /**
    `linkElement?.href || "N/A"`: the title link's URL, or "N/A" when there
    is no title, the title is not an anchor, or its href is empty.
  */
  function FullUrl(a: ArticleElement): (url: string)
    ensures url != ""
    ensures url == NotAvailable <==>
              a.title.None? || a.title.value.href.None? || a.title.value.href.value in {"", NotAvailable}
    ensures url != NotAvailable ==> url == a.title.value.href.value
  {
    OrNotAvailable(if a.title.Some? then a.title.value.href else None)
  }

  /** `new URL(fullUrl)` runs only for a URL other than "N/A", and throws unless that URL is absolute. */
  predicate UrlParsable(a: ArticleElement) {
    FullUrl(a) != NotAvailable ==> IsAbsoluteUrl(FullUrl(a))
  }

  /** The path of the title link, or "N/A" when there is no link URL. */
  function UrlPath(a: ArticleElement): (r: string)
    requires UrlParsable(a)
    ensures r == NotAvailable || r == [] || r[0] == '/'
  {
    var fullUrl := FullUrl(a);
    if fullUrl != NotAvailable then Pathname(fullUrl) else NotAvailable
  }

  /**
    `urlPath.toLowerCase().includes("recap")`: "recap" occurs somewhere in
    the lower-cased path. It never occurs in "N/A".
  */
  function PathHasRecap(urlPath: string): (recap: bool)
    ensures recap <==> exists i :: OccursAt(Lower(urlPath), "recap", i)
    ensures urlPath == NotAvailable ==> !recap
  {
    ContainsIff(Lower(urlPath), "recap");
    Contains(Lower(urlPath), "recap")
  }

  /** The body of the `map` callback: one article to one record. */
  function ExtractArticle(a: ArticleElement): (r: ArticleData)
    requires UrlParsable(a)
    ensures r.headline != "" && r.team != "" && r.lastUpdated != ""
    ensures a.title.None? ==> r.headline == NotAvailable && r.urlPath == NotAvailable && !r.containsRecap
    ensures r.containsRecap ==> r.urlPath != NotAvailable
    ensures a.time.None? || a.time.value.datetime.None? || a.time.value.datetime.value == "" ==>
              r.lastUpdated == NotAvailable
    ensures a.time.Some? && a.time.value.datetime.Some? && a.time.value.datetime.value != "" ==>
              r.lastUpdated == a.time.value.datetime.value
  {
    var headline := OrNotAvailable(TrimmedText(if a.title.Some? then Some(a.title.value.text) else None));
    var team := OrNotAvailable(TrimmedText(a.teamSpan));
    var lastUpdated := OrNotAvailable(if a.time.Some? then a.time.value.datetime else None);
    var urlPath := UrlPath(a);
    ArticleData(team, headline, lastUpdated, urlPath, PathHasRecap(urlPath))
  }

  /**
    `scrapeHeadlines` once the page is parsed: exactly one record per matched
    article, in document order.
  */
  function ScrapeHeadlines(articles: seq<ArticleElement>): (r: seq<ArticleData>)
    requires forall i :: 0 <= i < |articles| ==> UrlParsable(articles[i])
    ensures |r| == |articles|
    ensures forall i :: 0 <= i < |articles| ==> r[i] == ExtractArticle(articles[i])
  {
    if articles == [] then []
    else [ExtractArticle(articles[0])] + ScrapeHeadlines(articles[1..])
  }

  /**
    `headline` is the trimmed title text, which then starts and ends with
    other than whitespace; it is "N/A" when the title element is missing or
    its text is only whitespace.
  */
  lemma HeadlineRule(a: ArticleElement)
    requires UrlParsable(a)
    ensures a.title.None? || AllWhitespace(a.title.value.text) ==> ExtractArticle(a).headline == NotAvailable
    ensures a.title.Some? && !AllWhitespace(a.title.value.text) ==>
              var h := ExtractArticle(a).headline;
              h == Trim(a.title.value.text) && !IsWhitespace(h[0]) && !IsWhitespace(h[|h| - 1])
  {
  }

  /**
    `team` is the trimmed text of the first span of `.article-meta`; it is
    "N/A" when that span is missing or its text is only whitespace.
  */
  lemma TeamRule(a: ArticleElement)
    requires UrlParsable(a)
    ensures a.teamSpan.None? || AllWhitespace(a.teamSpan.value) ==> ExtractArticle(a).team == NotAvailable
    ensures a.teamSpan.Some? && !AllWhitespace(a.teamSpan.value) ==>
              var t := ExtractArticle(a).team;
              t == Trim(a.teamSpan.value) && !IsWhitespace(t[0]) && !IsWhitespace(t[|t| - 1])
  {
  }

  /**
    `lastUpdated` is the `datetime` attribute as it is, with no trimming. It
    is "N/A" exactly when the time element or its attribute is missing, or
    the attribute is empty or itself "N/A".
  */
  lemma LastUpdatedRule(a: ArticleElement)
    requires UrlParsable(a)
    ensures ExtractArticle(a).lastUpdated == NotAvailable <==>
              a.time.None? || a.time.value.datetime.None? || a.time.value.datetime.value in {"", NotAvailable}
    ensures ExtractArticle(a).lastUpdated != NotAvailable ==> ExtractArticle(a).lastUpdated == a.time.value.datetime.value
  {
  }

  /**
    `urlPath` is "N/A" exactly when there is no link URL: no title element,
    a title that is not an anchor, or an empty href. Otherwise it is the
    pathname of the link, and scheme and host never appear in it.
  */
  lemma UrlPathRule(a: ArticleElement)
    requires UrlParsable(a)
    ensures ExtractArticle(a).urlPath == NotAvailable <==>
              a.title.None? || a.title.value.href.None? || a.title.value.href.value == ""
              || a.title.value.href.value == NotAvailable
    ensures FullUrl(a) != NotAvailable ==> ExtractArticle(a).urlPath == Pathname(a.title.value.href.value)
  {
  }

  /**
    `containsRecap` is a case-insensitive search of `urlPath` for "recap",
    and never holds when `urlPath` is "N/A".
  */
  lemma RecapRule(a: ArticleElement)
    requires UrlParsable(a)
    ensures var r := ExtractArticle(a);
            && (r.containsRecap <==> exists i :: OccursAt(Lower(r.urlPath), "recap", i))
            && (r.urlPath == NotAvailable ==> !r.containsRecap)
  {
  }

  /**
    Unlike the streaming parser, which searches the whole href, the
    extraction searches only the path. A query holding "recap" changes
    neither `urlPath` nor `containsRecap`.
  */
  lemma QueryNeverMarksRecap(a: ArticleElement, query: string)
    requires a.title.Some? && a.title.value.href.Some?
    requires IsAbsoluteUrl(a.title.value.href.value)
    requires var href := a.title.value.href.value; !IsC0OrSpace(href[|href| - 1])
    ensures var href := a.title.value.href.value + ['?'] + query;
            var b := a.(title := Some(a.title.value.(href := Some(href))));
            && UrlParsable(b)
            && ExtractArticle(b).urlPath == ExtractArticle(a).urlPath
            && ExtractArticle(b).containsRecap == ExtractArticle(a).containsRecap
  {
    var href := a.title.value.href.value;
    PathnameIgnoresSuffix(href, '?', query);
  }
}

=== FILE: scraper.dfy ===
/**
  The streaming article parser: an element handler that the HTML rewriter
  drives with element, text and end-tag events. It keeps one scratch record,
  fills it field by field while the elements of one `<article>` stream past,
  and appends it to the output when the article closes, provided all four
  string fields are non-empty.
*/
module Scraper {
  import opened Wrappers
  import opened Strings
  import opened Url

  /** An emitted record (`Article`). */
  datatype Article = Article(
    team: string,
    headline: string,
    lastUpdated: string,
    urlPath: string,
    containsRecap: bool)

  /** The scratch record (`Partial<Article>`): every field may still be unset. */
  datatype PartialArticle = PartialArticle(
    team: Option<string>,
    headline: Option<string>,
    lastUpdated: Option<string>,
    urlPath: Option<string>,
    containsRecap: Option<bool>)

  /** The scratch record right after `currentArticle = {}`. */
  const Empty := PartialArticle(None, None, None, None, None)

  /**
    What reaches the handler: an opened element (its tag name, its attributes
    and its text content when the host supplies one), a text chunk, or the
    closing of a tag.
  */
  datatype Event =
    | Open(tag: string, attrs: map<string, string>, text: Option<string>)
    | Text(content: string)
    | Close(tag: string)

  /** A field that is set to a truthy (non-empty) string. */
  predicate NonEmpty(o: Option<string>) {
    o.Some? && o.value != ""
  }

  /** `isValidArticle`: team, headline, lastUpdated and urlPath are all set and non-empty. */
  predicate IsValidArticle(p: PartialArticle): (valid: bool)
    ensures valid ==> p.team.Some? && p.headline.Some? && p.lastUpdated.Some? && p.urlPath.Some?
    ensures p == Empty ==> !valid
  {
    NonEmpty(p.team) && NonEmpty(p.headline) && NonEmpty(p.lastUpdated) && NonEmpty(p.urlPath)
  }

  /** The validity invariant of an emitted record. */
  predicate IsComplete(a: Article) {
    a.team != "" && a.headline != "" && a.lastUpdated != "" && a.urlPath != ""
  }

  /** `urlPath` and `containsRecap` are only ever set together. */
  predicate Coherent(p: PartialArticle) {
    p.urlPath.Some? == p.containsRecap.Some?
  }

  /** An `a` element with an `href` hands that href to `new URL`, which throws unless it is absolute. */
  predicate HrefParsable(tag: string, attrs: map<string, string>) {
    tag == "a" && "href" in attrs ==> IsAbsoluteUrl(attrs["href"])
  }

  predicate Parsable(e: Event) {
    e.Open? ==> HrefParsable(e.tag, e.attrs)
  }

  predicate AllParsable(events: seq<Event>) {
    forall i :: 0 <= i < |events| ==> Parsable(events[i])
  }

  /**
    `currentArticle as Article`, for a valid scratch record: every field is
    carried over, and the result meets the validity invariant.
  */
  function ToArticle(p: PartialArticle): (a: Article)
    requires IsValidArticle(p) && Coherent(p)
    ensures IsComplete(a)
    ensures p.team == Some(a.team) && p.headline == Some(a.headline)
    ensures p.lastUpdated == Some(a.lastUpdated) && p.urlPath == Some(a.urlPath)
    ensures p.containsRecap == Some(a.containsRecap)
  {
    Article(p.team.value, p.headline.value, p.lastUpdated.value, p.urlPath.value, p.containsRecap.value)
  }

  /**
    `isValidArticle` accepts a coherent scratch record exactly when the cast
    `as Article` would give a complete record.
  */
  lemma ValidExactlyWhenCastComplete(p: PartialArticle)
    requires Coherent(p)
    ensures IsValidArticle(p) <==>
              && p.team.Some? && p.headline.Some? && p.lastUpdated.Some? && p.urlPath.Some?
              && IsComplete(Article(p.team.value, p.headline.value, p.lastUpdated.value, p.urlPath.value,
                                    p.containsRecap.Some? && p.containsRecap.value))
  {
  }

  /** `getAttribute(name) || ""`. */
  function AttrOrEmpty(attrs: map<string, string>, name: string): string {
    if name in attrs then attrs[name] else ""
  }

  /** Whether an href marks a recap: `href.toLowerCase().includes("recap")`. */
  function HrefHasRecap(href: string): (recap: bool)
    ensures recap <==> exists i :: OccursAt(Lower(href), "recap", i)
  {
    ContainsIff(Lower(href), "recap");
    Contains(Lower(href), "recap")
  }

  /** The field writes of `element` for `a[href]`, `time` and `span[class]`. */
  function FieldUpdates(p: PartialArticle, tag: string, attrs: map<string, string>, text: Option<string>): PartialArticle
    requires HrefParsable(tag, attrs)
  {
    var p1 :=
      if tag == "a" && "href" in attrs then
        p.(urlPath := Some(Pathname(attrs["href"])),
           containsRecap := Some(HrefHasRecap(attrs["href"])),
           headline := text)
      else p;
    var p2 := if tag == "time" then p1.(lastUpdated := Some(AttrOrEmpty(attrs, "datetime"))) else p1;
    if tag == "span" && "class" in attrs then p2.(team := text) else p2
  }

  /**
    `element`: an `article` first resets the scratch record, then the field
    writes apply. Each of the four tags writes only its own fields, and any
    other element leaves the record as it was.
  */
  function ElementStep(p: PartialArticle, tag: string, attrs: map<string, string>, text: Option<string>): (q: PartialArticle)
    requires HrefParsable(tag, attrs)
    ensures tag == "article" ==> q == Empty
    ensures tag == "a" && "href" in attrs ==>
              q == p.(urlPath := Some(Pathname(attrs["href"])),
                      containsRecap := Some(HrefHasRecap(attrs["href"])),
                      headline := text)
    ensures tag == "time" ==> q == p.(lastUpdated := Some(AttrOrEmpty(attrs, "datetime")))
    ensures tag == "span" && "class" in attrs ==> q == p.(team := text)
    ensures (tag == "a" && "href" !in attrs) || (tag == "span" && "class" !in attrs) ==> q == p
    ensures tag !in {"article", "a", "time", "span"} ==> q == p
  {
    FieldUpdates(if tag == "article" then Empty else p, tag, attrs, text)
  }

  /** The parser's whole state: the output so far and the scratch record. */
  datatype State = State(articles: seq<Article>, current: PartialArticle)

  const Initial := State([], Empty)

  /** Every emitted record is complete, and the scratch record is coherent. */
  predicate Invariant(s: State) {
    && (forall i :: 0 <= i < |s.articles| ==> IsComplete(s.articles[i]))
    && Coherent(s.current)
  }

  /** One event, as the handler reacts to it. */
  function Step(s: State, e: Event): (t: State)
    requires Coherent(s.current) && Parsable(e)
    ensures Coherent(t.current)
    ensures e.Text? ==> t == s
    ensures e.Open? ==> t.articles == s.articles
  {
    match e
    case Open(tag, attrs, text) => State(s.articles, ElementStep(s.current, tag, attrs, text))
    case Text(_) => s
    case Close(tag) =>
      if tag == "article" && IsValidArticle(s.current) then
        State(s.articles + [ToArticle(s.current)], s.current)
      else s
  }

  /** A whole event stream, in document order. */
  function Run(s: State, events: seq<Event>): (t: State)
    requires Coherent(s.current) && AllParsable(events)
    ensures Coherent(t.current)
  {
    if events == [] then s
    else Step(Run(s, events[..|events| - 1]), events[|events| - 1])
  }

  /** Feeding one more event is one more step. */
  lemma RunSnoc(s: State, events: seq<Event>, e: Event)
    requires Coherent(s.current) && AllParsable(events) && Parsable(e)
    ensures AllParsable(events + [e])
    ensures Run(s, events + [e]) == Step(Run(s, events), e)
  {
  }

  /** How many `</article>` closings a stream holds. */
  function ArticleCloses(events: seq<Event>): nat {
    if events == [] then 0
    else ArticleCloses(events[..|events| - 1]) + (if events[|events| - 1] == Close("article") then 1 else 0)
  }

  /** Every event keeps the emitted records complete and the scratch record coherent. */
  lemma StepPreservesInvariant(s: State, e: Event)
    requires Invariant(s) && Parsable(e)
    ensures Invariant(Step(s, e))
  {
  }

  /** The validity invariant holds of everything a stream emits. */
  lemma {:induction false} RunPreservesInvariant(s: State, events: seq<Event>)
    requires Invariant(s) && AllParsable(events)
    ensures Invariant(Run(s, events))
  {
    if events != [] {
      var init := events[..|events| - 1];
      RunPreservesInvariant(s, init);
      StepPreservesInvariant(Run(s, init), events[|events| - 1]);
    }
  }

  /**
    One event appends at most one record, and only a `</article>` closing a
    valid scratch record appends one: that record, carried over field by field.
    No closing ever touches the scratch record.
  */
  lemma StepAppendOnly(s: State, e: Event)
    requires Coherent(s.current) && Parsable(e)
    ensures var t := Step(s, e);
            && s.articles <= t.articles
            && (|t.articles| == |s.articles| + 1 <==> e == Close("article") && IsValidArticle(s.current))
            && (|t.articles| == |s.articles| + 1 ==> t.articles[|s.articles|] == ToArticle(s.current))
            && |t.articles| <= |s.articles| + 1
            && (e.Close? ==> t.current == s.current)
  {
  }

  /**
    `articles` is append-only: what a stream started with stays a prefix, and
    it grows by at most one record per `</article>`.
  */
  lemma {:induction false} RunAppendOnly(s: State, events: seq<Event>)
    requires Coherent(s.current) && AllParsable(events)
    ensures s.articles <= Run(s, events).articles
    ensures |Run(s, events).articles| <= |s.articles| + ArticleCloses(events)
  {
    if events != [] {
      var init := events[..|events| - 1];
      RunAppendOnly(s, init);
      StepAppendOnly(Run(s, init), events[|events| - 1]);
    }
  }

  /** Feeding a stream in two parts is feeding it in one. */
  lemma {:induction false} RunConcat(s: State, first: seq<Event>, second: seq<Event>)
    requires Coherent(s.current) && AllParsable(first) && AllParsable(second)
    ensures AllParsable(first + second)
    ensures Run(s, first + second) == Run(Run(s, first), second)
  {
    var all := first + second;
    assert AllParsable(all) by {
      forall i | 0 <= i < |all|
        ensures Parsable(all[i])
      {
        if i < |first| { assert all[i] == first[i]; } else { assert all[i] == second[i - |first|]; }
      }
    }
    if second != [] {
      var init := second[..|second| - 1];
      assert all[..|all| - 1] == first + init;
      RunConcat(s, first, init);
    } else {
      assert all == first;
    }
  }

  /**
    `containsRecap` on an `a[href]` is a case-insensitive search of the whole
    href, not just its path: "recap" anywhere in the query makes it true even
    though the query never reaches `urlPath`.
  */
  lemma RecapSeesWholeHref(href: string, query: string)
    requires IsAbsoluteUrl(href) && !IsC0OrSpace(href[|href| - 1])
    requires Contains(Lower(query), "recap")
    ensures IsAbsoluteUrl(href + ['?'] + query)
    ensures Pathname(href + ['?'] + query) == Pathname(href)
    ensures HrefHasRecap(href + ['?'] + query)
  {
    PathnameIgnoresSuffix(href, '?', query);
    LowerAppend(href + ['?'], query);
    ContainsInSuffix(Lower(href + ['?']), Lower(query), "recap");
  }

  /**
    The handler object (`ArticleParser`): `articles` only grows, and each
    callback changes the scratch record `current` as the source does.
  */
  class ArticleParser {
    var articles: seq<Article>
    var current: PartialArticle

    ghost predicate Valid()
      reads this
    {
      Invariant(State(articles, current))
    }

    constructor ()
      ensures Valid()
      ensures articles == [] && current == Empty
    {
      articles := [];
      current := Empty;
    }

    /** `element`: reacts to `article`, `a[href]`, `time` and `span[class]`; `articles` is untouched. */
    method Element(tag: string, attrs: map<string, string>, text: Option<string>)
      requires Valid() && HrefParsable(tag, attrs)
      modifies this
      ensures Valid()
      ensures articles == old(articles)
      ensures current == ElementStep(old(current), tag, attrs, text)
      ensures tag == "article" ==> current == Empty
      ensures tag == "a" && "href" in attrs ==>
                current == old(current).(urlPath := Some(Pathname(attrs["href"])),
                                         containsRecap := Some(HrefHasRecap(attrs["href"])),
                                         headline := text)
      ensures tag == "time" ==> current == old(current).(lastUpdated := Some(AttrOrEmpty(attrs, "datetime")))
      ensures tag == "span" && "class" in attrs ==> current == old(current).(team := text)
      ensures (tag == "a" && "href" !in attrs) || (tag == "span" && "class" !in attrs) ==> current == old(current)
      ensures tag !in {"article", "a", "time", "span"} ==> current == old(current)
    {
      if tag == "article" {
        current := Empty;
      }
      if tag == "a" && "href" in attrs {
        var href := attrs["href"];
        current := current.(urlPath := Some(Pathname(href)));
        current := current.(containsRecap := Some(HrefHasRecap(href)));
        current := current.(headline := text);
      }
      if tag == "time" {
        current := current.(lastUpdated := Some(AttrOrEmpty(attrs, "datetime")));
      }
      if tag == "span" && "class" in attrs {
        current := current.(team := text);
      }
    }

    /** `text`: text chunks change nothing. */
    method Text(content: string)
      requires Valid()
      ensures Valid()
      ensures unchanged(this)
    {
    }

    /**
      `endTag`: closing an `article` whose scratch record is valid appends
      exactly that record; any other closing changes nothing, and no closing
      touches the scratch record.
    */
    method EndTag(tag: string)
      requires Valid()
      modifies this
      ensures Valid()
      ensures current == old(current)
      ensures tag == "article" && IsValidArticle(old(current)) ==>
                articles == old(articles) + [ToArticle(old(current))]
      ensures !(tag == "article" && IsValidArticle(old(current))) ==> articles == old(articles)
      ensures State(articles, current) == Step(old(State(articles, current)), Close(tag))
    {
      if tag == "article" && IsValidArticle(current) {
        articles := articles + [ToArticle(current)];
      }
    }

    /**
      Drives the handler with a stream of events in document order: the new
      state is the stream's `Run` from the old one, so the old output stays a
      prefix and everything emitted is complete.
    */
    method Process(events: seq<Event>)
      requires Valid() && AllParsable(events)
      modifies this
      ensures Valid()
      ensures State(articles, current) == Run(old(State(articles, current)), events)
      ensures old(articles) <= articles
      ensures |articles| <= |old(articles)| + ArticleCloses(events)
    {
      ghost var start := State(articles, current);
      for i := 0 to |events|
        invariant Valid()
        invariant State(articles, current) == Run(start, events[..i])
      {
        assert events[..i + 1][..i] == events[..i];
        match events[i]
        case Open(tag, attrs, text) => Element(tag, attrs, text);
        case Text(content) => this.Text(content);
        case Close(tag) => EndTag(tag);
      }
      assert events[..|events|] == events;
      RunAppendOnly(start, events);
    }
  }

  /**
    `scrapeArticles` once the page is fetched: a fresh parser fed the page's
    events returns exactly what the stream emits, all of it complete.
  */
  method ScrapeArticles(events: seq<Event>) returns (articles: seq<Article>)
    requires AllParsable(events)
    ensures articles == Run(Initial, events).articles
    ensures forall i :: 0 <= i < |articles| ==> IsComplete(articles[i])
  {
    var parser := new ArticleParser();
    parser.Process(events);
    articles := parser.articles;
  }
}

=== FILE: scraper_heap.dfy ===
/**
  The article parser with JavaScript reference semantics. `endTag` pushes the
  scratch object itself, not a copy, and only an `article` element replaces
  `currentArticle` with a fresh object. A field write that arrives between
  `</article>` and the next `<article>` therefore changes the record that was
  already emitted.

  Objects live in `objects` and are named by their index. `articles` holds
  indices, and `current` is the index of the scratch object.
*/
module ScraperHeap {
  import opened Wrappers
  import opened Url
  import opened Scraper

  datatype Heap = Heap(objects: seq<PartialArticle>, articles: seq<nat>, current: nat)

  predicate WellFormed(h: Heap) {
    && h.current < |h.objects|
    && forall i :: 0 <= i < |h.articles| ==> h.articles[i] < |h.objects|
  }

  /** A fresh parser: one empty scratch object and no records. */
  const InitialHeap := Heap([Empty], [], 0)

  /** The scratch object has not been pushed, so writes to it stay private. */
  predicate Detached(h: Heap) {
    h.current !in h.articles
  }

  /**
    One event as the source runs it. `article` allocates a fresh object and
    makes it current. Every other element writes only the current object. A
    valid `</article>` pushes the current object itself, not a copy, and the
    object stays current.
  */
  function HeapStep(h: Heap, e: Event): (g: Heap)
    requires WellFormed(h) && Parsable(e)
    ensures WellFormed(g)
    ensures h.articles <= g.articles && |g.articles| <= |h.articles| + 1
    ensures e.Open? && e.tag == "article" ==>
              g.objects == h.objects + [Empty] && g.current == |h.objects| && g.articles == h.articles
    ensures e.Open? && e.tag != "article" ==>
              && |g.objects| == |h.objects| && g.current == h.current && g.articles == h.articles
              && forall i :: 0 <= i < |h.objects| && i != h.current ==> g.objects[i] == h.objects[i]
    ensures e == Close("article") && IsValidArticle(h.objects[h.current]) ==>
              g.articles == h.articles + [h.current] && g.objects == h.objects && g.current == h.current
    ensures !e.Open? && !(e == Close("article") && IsValidArticle(h.objects[h.current])) ==> g == h
  {
    match e
    case Open(tag, attrs, text) =>
      var h1 := if tag == "article" then Heap(h.objects + [Empty], h.articles, |h.objects|) else h;
      h1.(objects := h1.objects[h1.current := FieldUpdates(h1.objects[h1.current], tag, attrs, text)])
    case Text(_) => h
    case Close(tag) =>
      if tag == "article" && IsValidArticle(h.objects[h.current]) then h.(articles := h.articles + [h.current])
      else h
  }

  /**
    What a non-`article` element writes as the source runs it: the current
    object becomes what the copying parser's scratch record would become.
  */
  lemma HeapStepWrites(h: Heap, e: Event)
    requires WellFormed(h) && Parsable(e) && e.Open? && e.tag != "article"
    ensures HeapStep(h, e).objects[h.current] == ElementStep(h.objects[h.current], e.tag, e.attrs, e.text)
  {
  }

  /**
    A whole stream as the source runs it. Objects are only ever added, and
    `articles` only grows.
  */
  function HeapRun(h: Heap, events: seq<Event>): (g: Heap)
    requires WellFormed(h) && AllParsable(events)
    ensures WellFormed(g)
    ensures |h.objects| <= |g.objects| && h.articles <= g.articles
  {
    if events == [] then h
    else HeapStep(HeapRun(h, events[..|events| - 1]), events[|events| - 1])
  }

  /** What reading `parser.articles` yields: every reference followed into the heap. */
  function Visible(h: Heap): (v: seq<PartialArticle>)
    requires WellFormed(h)
    ensures |v| == |h.articles|
    ensures forall i :: 0 <= i < |h.articles| ==> v[i] == h.objects[h.articles[i]]
  {
    seq(|h.articles|, i requires 0 <= i < |h.articles| => h.objects[h.articles[i]])
  }

  /** An emitted record seen as a scratch object with every field set. */
  function Lift(a: Article): PartialArticle {
    PartialArticle(Some(a.team), Some(a.headline), Some(a.lastUpdated), Some(a.urlPath), Some(a.containsRecap))
  }

  /** The stream of EmittedRecordInvalidated: one complete article, then a stray `time` without `datetime`. */
  function StrayTimeStream(href: string, headline: string, datetime: string, team: string): seq<Event> {
    [Open("article", map[], None)]
    + [Open("a", map["href" := href], Some(headline))]
    + [Open("time", map["datetime" := datetime], None)]
    + [Open("span", map["class" := "team"], Some(team))]
    + [Close("article")]
    + [Open("time", map[], None)]
  }

  /** The scratch record that the first four events of that stream build. */
  function Built(href: string, headline: string, datetime: string, team: string): PartialArticle
    requires IsAbsoluteUrl(href)
  {
    PartialArticle(Some(team), Some(headline), Some(datetime), Some(Pathname(href)), Some(HrefHasRecap(href)))
  }

  /** The field writes of the four elements the stray-time stream opens. */
  lemma FieldUpdatesOfStream(p: PartialArticle, href: string, headline: string, datetime: string, team: string)
    requires IsAbsoluteUrl(href)
    ensures FieldUpdates(p, "article", map[], None) == p
    ensures FieldUpdates(p, "a", map["href" := href], Some(headline))
            == p.(urlPath := Some(Pathname(href)), containsRecap := Some(HrefHasRecap(href)), headline := Some(headline))
    ensures FieldUpdates(p, "time", map["datetime" := datetime], None) == p.(lastUpdated := Some(datetime))
    ensures FieldUpdates(p, "time", map[], None) == p.(lastUpdated := Some(""))
    ensures FieldUpdates(p, "span", map["class" := "team"], Some(team)) == p.(team := Some(team))
  {
  }

  lemma HeapRunSnoc(h: Heap, events: seq<Event>, e: Event)
    requires WellFormed(h) && AllParsable(events) && Parsable(e)
    ensures AllParsable(events + [e])
    ensures HeapRun(h, events + [e]) == HeapStep(HeapRun(h, events), e)
  {
  }

  lemma StrayTimeHeap(href: string, headline: string, datetime: string, team: string)
    requires IsAbsoluteUrl(href) && Pathname(href) != ""
    requires headline != "" && datetime != "" && team != ""
    ensures AllParsable(StrayTimeStream(href, headline, datetime, team))
    ensures HeapRun(InitialHeap, StrayTimeStream(href, headline, datetime, team))
            == Heap([Empty, Built(href, headline, datetime, team).(lastUpdated := Some(""))], [1], 1)
  {
    var e0 := Open("article", map[], None);
    var e1 := Open("a", map["href" := href], Some(headline));
    var e2 := Open("time", map["datetime" := datetime], None);
    var e3 := Open("span", map["class" := "team"], Some(team));
    var e4 := Close("article");
    var e5 := Open("time", map[], None);
    var p := Built(href, headline, datetime, team);
    var p1 := Empty.(urlPath := p.urlPath, containsRecap := p.containsRecap, headline := p.headline);
    FieldUpdatesOfStream(Empty, href, headline, datetime, team);
    FieldUpdatesOfStream(p1, href, headline, datetime, team);
    FieldUpdatesOfStream(p1.(lastUpdated := p.lastUpdated), href, headline, datetime, team);
    FieldUpdatesOfStream(p, href, headline, datetime, team);
    HeapRunSnoc(InitialHeap, [], e0);
    assert [] + [e0] == [e0];
    assert HeapRun(InitialHeap, [e0]) == Heap([Empty, Empty], [], 1);
    HeapRunSnoc(InitialHeap, [e0], e1);
    assert HeapRun(InitialHeap, [e0] + [e1]) == Heap([Empty, p1], [], 1);
    HeapRunSnoc(InitialHeap, [e0] + [e1], e2);
    assert HeapRun(InitialHeap, [e0] + [e1] + [e2]) == Heap([Empty, p1.(lastUpdated := p.lastUpdated)], [], 1);
    HeapRunSnoc(InitialHeap, [e0] + [e1] + [e2], e3);
    assert HeapRun(InitialHeap, [e0] + [e1] + [e2] + [e3]) == Heap([Empty, p], [], 1);
    HeapRunSnoc(InitialHeap, [e0] + [e1] + [e2] + [e3], e4);
    assert HeapRun(InitialHeap, [e0] + [e1] + [e2] + [e3] + [e4]) == Heap([Empty, p], [1], 1);
    HeapRunSnoc(InitialHeap, [e0] + [e1] + [e2] + [e3] + [e4], e5);
  }

  lemma StrayTimeValue(href: string, headline: string, datetime: string, team: string)
    requires IsAbsoluteUrl(href) && Pathname(href) != ""
    requires headline != "" && datetime != "" && team != ""
    ensures AllParsable(StrayTimeStream(href, headline, datetime, team))
    ensures Run(Initial, StrayTimeStream(href, headline, datetime, team)).articles
            == [Article(team, headline, datetime, Pathname(href), HrefHasRecap(href))]
  {
    var e0 := Open("article", map[], None);
    var e1 := Open("a", map["href" := href], Some(headline));
    var e2 := Open("time", map["datetime" := datetime], None);
    var e3 := Open("span", map["class" := "team"], Some(team));
    var e4 := Close("article");
    var e5 := Open("time", map[], None);
    var p := Built(href, headline, datetime, team);
    var p1 := Empty.(urlPath := p.urlPath, containsRecap := p.containsRecap, headline := p.headline);
    FieldUpdatesOfStream(Empty, href, headline, datetime, team);
    FieldUpdatesOfStream(p1, href, headline, datetime, team);
    FieldUpdatesOfStream(p1.(lastUpdated := p.lastUpdated), href, headline, datetime, team);
    FieldUpdatesOfStream(p, href, headline, datetime, team);
    RunSnoc(Initial, [], e0);
    assert [] + [e0] == [e0];
    assert Run(Initial, [e0]) == Initial;
    RunSnoc(Initial, [e0], e1);
    assert Run(Initial, [e0] + [e1]) == State([], p1);
    RunSnoc(Initial, [e0] + [e1], e2);
    assert Run(Initial, [e0] + [e1] + [e2]) == State([], p1.(lastUpdated := p.lastUpdated));
    RunSnoc(Initial, [e0] + [e1] + [e2], e3);
    assert Run(Initial, [e0] + [e1] + [e2] + [e3]) == State([], p);
    RunSnoc(Initial, [e0] + [e1] + [e2] + [e3], e4);
    assert Run(Initial, [e0] + [e1] + [e2] + [e3] + [e4]) == State([ToArticle(p)], p);
    RunSnoc(Initial, [e0] + [e1] + [e2] + [e3] + [e4], e5);
  }

  /**
    After a complete article has been emitted, a `time` element without
    `datetime` empties the emitted record's `lastUpdated`. Such an element sits
    outside any `<article>` but still matches `time.updated`. The heap then
    holds an emitted record that fails `isValidArticle`. The value model emits
    the same article and keeps it complete. The article links to any
    `scheme://host/path` with a non-empty path and
    no port.
  */
  lemma EmittedRecordInvalidated(scheme: string, host: string, path: string,
                                  headline: string, datetime: string, team: string)
    requires IsScheme(scheme) && (host != [] || !SkipsSlashes(scheme))
    requires forall i :: 0 <= i < |host| ==> host[i] != '/' && host[i] != '?' && host[i] != '#' && host[i] != ':' && !IsC0OrSpace(host[i])
    requires path != [] && path[0] == '/'
    requires forall i :: 0 <= i < |path| ==> path[i] != '?' && path[i] != '#' && !IsC0OrSpace(path[i])
    requires headline != "" && datetime != "" && team != ""
    ensures var events := StrayTimeStream(scheme + "://" + host + path, headline, datetime, team);
            && AllParsable(events)
            && |Visible(HeapRun(InitialHeap, events))| == 1
            && Visible(HeapRun(InitialHeap, events))[0].lastUpdated == Some("")
            && !IsValidArticle(Visible(HeapRun(InitialHeap, events))[0])
            && |Run(Initial, events).articles| == 1
            && Run(Initial, events).articles[0].lastUpdated == datetime
            && IsComplete(Run(Initial, events).articles[0])
  {
    var href := scheme + "://" + host + path;
    PathnameOfHostAndPath(scheme, host, path);
    StrayTimeHeap(href, headline, datetime, team);
    StrayTimeValue(href, headline, datetime, team);
  }


  /** The heap and the value model agree: same scratch record, and the same records in `articles`. */
  predicate Agree(h: Heap, s: State) {
    && WellFormed(h)
    && h.objects[h.current] == s.current
    && |h.articles| == |s.articles|
    && forall i :: 0 <= i < |h.articles| ==> h.objects[h.articles[i]] == Lift(s.articles[i])
  }

  /** An event that may write a field of the scratch object. */
  predicate Writes(e: Event) {
    e.Open? && e.tag != "article"
  }

  /** The last `<article>` or `</article>` of the stream is a closing one. */
  function AfterClose(events: seq<Event>): bool {
    if events == [] then false
    else
      var last := events[|events| - 1];
      if last == Close("article") then true
      else if last.Open? && last.tag == "article" then false
      else AfterClose(events[..|events| - 1])
  }

  /** Every field write comes while an `<article>` is open, never between `</article>` and the next `<article>`. */
  predicate NoStrayWrites(events: seq<Event>) {
    forall j :: 0 <= j < |events| && Writes(events[j]) ==> !AfterClose(events[..j])
  }

  /** One event keeps the two models in step unless it writes through a reference already pushed. */
  lemma StepAgrees(h: Heap, s: State, e: Event)
    requires Agree(h, s) && Coherent(s.current) && Parsable(e)
    requires Detached(h) || !Writes(e)
    ensures Agree(HeapStep(h, e), Step(s, e))
  {
  }

  /**
    On a stream with no stray field writes, the source's reference semantics
    give the same records as the value model. The aliasing only shows on
    streams like the one in EmittedRecordInvalidated.
  */
  lemma {:induction false} RunAgrees(events: seq<Event>)
    requires AllParsable(events) && NoStrayWrites(events)
    ensures Agree(HeapRun(InitialHeap, events), Run(Initial, events))
    ensures !AfterClose(events) ==> Detached(HeapRun(InitialHeap, events))
    ensures Visible(HeapRun(InitialHeap, events)) == seq(|Run(Initial, events).articles|,
              i requires 0 <= i < |Run(Initial, events).articles| => Lift(Run(Initial, events).articles[i]))
  {
    if events != [] {
      var init := events[..|events| - 1];
      var e := events[|events| - 1];
      assert NoStrayWrites(init) by {
        forall j | 0 <= j < |init| && Writes(init[j])
          ensures !AfterClose(init[..j])
        {
          assert init[..j] == events[..j];
        }
      }
      RunAgrees(init);
      assert Writes(e) ==> !AfterClose(events[..|events| - 1]);
      StepAgrees(HeapRun(InitialHeap, init), Run(Initial, init), e);
    }
  }
}

=== FILE: strings.dfy ===
/**
  The string operations the extractor relies on: `String.prototype.trim`,
  `String.prototype.toLowerCase`, `String.prototype.includes`, and a
  "longest prefix free of some stop characters" scan used to cut URLs apart.
*/
module Strings {

  /** The characters `trim` strips: ECMAScript WhiteSpace and LineTerminator. */
  predicate IsWhitespace(c: char) {
    || c == '\t' || c == '\n' || c == '\U{000B}' || c == '\U{000C}' || c == '\r' || c == ' '
    || c == '\U{00A0}' || c == '\U{1680}' || ('\U{2000}' <= c <= '\U{200A}')
    || c == '\U{2028}' || c == '\U{2029}' || c == '\U{202F}' || c == '\U{205F}'
    || c == '\U{3000}' || c == '\U{FEFF}'
  }

  predicate AllWhitespace(s: string) {
    forall i :: 0 <= i < |s| ==> IsWhitespace(s[i])
  }

  /** `s` with its leading whitespace removed. */
  function TrimStart(s: string): (r: string)
    ensures |r| <= |s|
  {
    if s != [] && IsWhitespace(s[0]) then TrimStart(s[1..]) else s
  }

  /** `TrimStart` drops a whitespace prefix and stops at the first other character. */
  lemma {:induction false} TrimStartSpec(s: string)
    ensures var r := TrimStart(s);
            && |r| <= |s| && r == s[|s| - |r|..]
            && AllWhitespace(s[..|s| - |r|])
            && (r == [] || !IsWhitespace(r[0]))
  {
    if s != [] && IsWhitespace(s[0]) {
      TrimStartSpec(s[1..]);
      var r := TrimStart(s[1..]);
      assert s[..|s| - |r|] == [s[0]] + s[1..][..|s| - 1 - |r|];
    }
  }

  /** `s` with its trailing whitespace removed. */
  function TrimEnd(s: string): (r: string)
    ensures |r| <= |s|
  {
    if s != [] && IsWhitespace(s[|s| - 1]) then TrimEnd(s[..|s| - 1]) else s
  }

  /** `TrimEnd` drops a whitespace suffix and stops at the last other character. */
  lemma {:induction false} TrimEndSpec(s: string)
    ensures var r := TrimEnd(s);
            && |r| <= |s| && r == s[..|r|]
            && AllWhitespace(s[|r|..])
            && (r == [] || !IsWhitespace(r[|r| - 1]))
  {
    if s != [] && IsWhitespace(s[|s| - 1]) {
      TrimEndSpec(s[..|s| - 1]);
      var r := TrimEnd(s[..|s| - 1]);
      assert s[|r|..] == s[..|s| - 1][|r|..] + [s[|s| - 1]];
    }
  }

  /**
    `s.trim()`: the result is the infix of `s` that starts where the leading
    whitespace ends, only whitespace follows it, and neither end of it is
    whitespace.
  */
  function Trim(s: string): (r: string)
    ensures var i := |s| - |TrimStart(s)|;
            && i + |r| <= |s| && r == s[i..i + |r|]
            && AllWhitespace(s[..i]) && AllWhitespace(s[i + |r|..])
    ensures r == [] || (!IsWhitespace(r[0]) && !IsWhitespace(r[|r| - 1]))
  {
    var t := TrimStart(s);
    TrimStartSpec(s);
    TrimEndSpec(t);
    InfixOfWhitespace(s, t, TrimEnd(t));
    TrimEnd(t)
  }

  /** A suffix `t` of `s` with whitespace before it, and a prefix `r` of `t` with whitespace after it. */
  lemma InfixOfWhitespace(s: string, t: string, r: string)
    requires |t| <= |s| && t == s[|s| - |t|..] && AllWhitespace(s[..|s| - |t|])
    requires |r| <= |t| && r == t[..|r|] && AllWhitespace(t[|r|..])
    requires t == [] || !IsWhitespace(t[0])
    requires r == [] || !IsWhitespace(r[|r| - 1])
    ensures var i := |s| - |t|;
            && i + |r| <= |s| && r == s[i..i + |r|]
            && AllWhitespace(s[..i]) && AllWhitespace(s[i + |r|..])
    ensures r == [] || (!IsWhitespace(r[0]) && !IsWhitespace(r[|r| - 1]))
  {
  }

  /** Trimming leaves nothing exactly when the string is all whitespace. */
  lemma TrimEmptyIff(s: string)
    ensures Trim(s) == [] <==> AllWhitespace(s)
  {
  }

  /** Trimming twice is trimming once. */
  lemma TrimIdempotent(s: string)
    ensures Trim(Trim(s)) == Trim(s)
  {
  }

  predicate IsAsciiUpper(c: char) {
    'A' <= c <= 'Z'
  }

  function LowerChar(c: char): char {
    if IsAsciiUpper(c) then (c as int + 32) as char else c
  }

  /**
    `s.toLowerCase()` over ASCII: the same length, no upper-case letter left,
    and every other character kept.
  */
  function Lower(s: string): (r: string)
    ensures |r| == |s|
    ensures forall i :: 0 <= i < |s| ==> !IsAsciiUpper(r[i])
    ensures forall i :: 0 <= i < |s| && !IsAsciiUpper(s[i]) ==> r[i] == s[i]
    ensures forall i :: 0 <= i < |s| && IsAsciiUpper(s[i]) ==> r[i] as int == s[i] as int + 32
  {
    seq(|s|, i requires 0 <= i < |s| => LowerChar(s[i]))
  }

  /** Lower-casing works character by character, so it distributes over concatenation. */
  lemma LowerAppend(x: string, y: string)
    ensures Lower(x + y) == Lower(x) + Lower(y)
  {
  }

  /** `t` occurs in `s` starting at index `i`. */
  predicate OccursAt(s: string, t: string, i: int) {
    0 <= i && i + |t| <= |s| && s[i..i + |t|] == t
  }

  /**
    `s.includes(t)`: try a match at the front of `s`, then move one character
    on. A needle longer than `s` is never found, and the empty needle always is.
  */
  function Contains(s: string, t: string): (found: bool)
    ensures found ==> |t| <= |s|
    ensures t == [] ==> found
    decreases |s|
  {
    |t| <= |s| && (s[..|t|] == t || Contains(s[1..], t))
  }

  /** An occurrence past the first position is an occurrence in the tail. */
  lemma OccursInTail(s: string, t: string, i: int)
    requires s != [] && 1 <= i
    ensures OccursAt(s, t, i) <==> OccursAt(s[1..], t, i - 1)
  {
  }

  /** `Contains` holds exactly when `t` occurs at some position of `s`. */
  lemma {:induction false} ContainsIff(s: string, t: string)
    ensures Contains(s, t) <==> exists i :: OccursAt(s, t, i)
    decreases |s|
  {
    if |t| <= |s| && s[..|t|] != t {
      ContainsIff(s[1..], t);
      if Contains(s[1..], t) {
        var i :| OccursAt(s[1..], t, i);
        OccursInTail(s, t, i + 1);
      } else {
        forall i | 1 <= i
          ensures !OccursAt(s, t, i)
        {
          OccursInTail(s, t, i);
        }
      }
    } else if |t| <= |s| {
      assert OccursAt(s, t, 0);
    }
  }

  /** Whatever `y` contains, any `x + y` contains too. */
  lemma ContainsInSuffix(x: string, y: string, t: string)
    requires Contains(y, t)
    ensures Contains(x + y, t)
  {
    ContainsIff(y, t);
    var i :| OccursAt(y, t, i);
    assert (x + y)[|x| + i..|x| + i + |t|] == y[i..i + |t|];
    assert OccursAt(x + y, t, |x| + i);
    ContainsIff(x + y, t);
  }

  /**
    The longest prefix of `s` with no character from `stops`: the scan a URL
    parser does for "everything up to the next delimiter".
  */
  function PrefixBefore(s: string, stops: set<char>): (r: string)
    ensures |r| <= |s| && r == s[..|r|]
    ensures forall i :: 0 <= i < |r| ==> r[i] !in stops
    ensures |r| < |s| ==> s[|r|] in stops
  {
    if s == [] || s[0] in stops then [] else [s[0]] + PrefixBefore(s[1..], stops)
  }

  /** Text appended after the point where the scan stops does not change the prefix. */
  lemma {:induction false} PrefixBeforeAppend(x: string, y: string, stops: set<char>)
    requires |PrefixBefore(x, stops)| < |x| || (y != [] && y[0] in stops)
    ensures PrefixBefore(x + y, stops) == PrefixBefore(x, stops)
  {
    if x != [] && x[0] !in stops {
      assert (x + y)[1..] == x[1..] + y;
      PrefixBeforeAppend(x[1..], y, stops);
    }
  }

  /** A stop-free `x` followed by a stop (or nothing) is exactly the prefix found. */
  lemma {:induction false} PrefixBeforeExact(x: string, y: string, stops: set<char>)
    requires forall i :: 0 <= i < |x| ==> x[i] !in stops
    requires y == [] || y[0] in stops
    ensures PrefixBefore(x + y, stops) == x
  {
    if x != [] {
      assert (x + y)[1..] == x[1..] + y;
      PrefixBeforeExact(x[1..], y, stops);
    }
  }
}

=== FILE: url.dfy ===
/**
  The part of URL parsing the extractor uses: `new URL(href).pathname` for an
  absolute, hierarchical URL `scheme://authority/path?query#fragment`. This is
  the path component of section 3.3 of RFC 3986, as the basic URL parser of
  the WHATWG URL Standard (section 4.4) reads it.
  - The parser first strips C0 controls and spaces from both ends of the href,
    then removes every tab and newline.
  - After `scheme://`, a special scheme other than `file` skips any further
    slashes before the host.
*/
module Url {
  import opened Strings

  predicate IsAsciiLetter(c: char) {
    'a' <= c <= 'z' || 'A' <= c <= 'Z'
  }

  predicate IsSchemeChar(c: char) {
    IsAsciiLetter(c) || '0' <= c <= '9' || c == '+' || c == '-' || c == '.'
  }

  /** A scheme: a letter followed by letters, digits, `+`, `-` or `.`. */
  predicate IsScheme(s: string) {
    |s| > 0 && IsAsciiLetter(s[0]) && forall i :: 0 <= i < |s| ==> IsSchemeChar(s[i])
  }

  /** A C0 control or a space: what the parser strips from both ends of the href. */
  predicate IsC0OrSpace(c: char) {
    c <= ' '
  }

  /** An ASCII tab or newline: what the parser removes from anywhere in the href. */
  predicate IsTabOrNewline(c: char) {
    c == '\t' || c == '\n' || c == '\r'
  }

  /** The href without its leading C0 controls and spaces. */
  function StripStart(s: string): (r: string)
    ensures |r| <= |s|
  {
    if s != [] && IsC0OrSpace(s[0]) then StripStart(s[1..]) else s
  }

  /** The href without its trailing C0 controls and spaces. */
  function StripEnd(s: string): (r: string)
    ensures |r| <= |s|
  {
    if s != [] && IsC0OrSpace(s[|s| - 1]) then StripEnd(s[..|s| - 1]) else s
  }

  /** The href with every tab and newline removed. */
  function RemoveTabsAndNewlines(s: string): (r: string)
    ensures |r| <= |s|
  {
    if s == [] then []
    else (if IsTabOrNewline(s[0]) then [] else [s[0]]) + RemoveTabsAndNewlines(s[1..])
  }

  /** What the parser reads of `href`. */
  function Input(href: string): string {
    RemoveTabsAndNewlines(StripEnd(StripStart(href)))
  }

  /** Everything before the first `:`. */
  function SchemeOf(input: string): string {
    PrefixBefore(input, {':'})
  }

  /** A scheme, then `://`. */
  predicate HasSchemeSlashes(input: string) {
    var scheme := SchemeOf(input);
    IsScheme(scheme) && |scheme| + 3 <= |input| && input[|scheme|..|scheme| + 3] == "://"
  }

  /** The schemes the URL Standard calls special. An empty path of one of them reads as `/`. */
  predicate IsSpecialScheme(scheme: string) {
    Lower(scheme) in {"ftp", "file", "http", "https", "ws", "wss"}
  }

  /** The special schemes that skip every slash before the host, and need a host. */
  predicate SkipsSlashes(scheme: string) {
    Lower(scheme) in {"ftp", "http", "https", "ws", "wss"}
  }

  /** `s` without its leading slashes. */
  function DropSlashes(s: string): (r: string)
    ensures |r| <= |s|
  {
    if s != [] && s[0] == '/' then DropSlashes(s[1..]) else s
  }

  /** `DropSlashes` keeps a suffix of its argument that does not start with a slash. */
  lemma {:induction false} DropSlashesSpec(s: string)
    ensures var r := DropSlashes(s);
            r == s[|s| - |r|..] && (r == [] || r[0] != '/')
  {
    if s != [] && s[0] == '/' {
      DropSlashesSpec(s[1..]);
    }
  }

  /** What follows `scheme://`, and any further slashes if the scheme skips them. */
  function AfterScheme(input: string): (r: string)
    requires HasSchemeSlashes(input)
    ensures |r| <= |input| - |SchemeOf(input)| - 3 && r == input[|input| - |r|..]
  {
    var rest := input[|SchemeOf(input)| + 3..];
    DropSlashesSpec(rest);
    if SkipsSlashes(SchemeOf(input)) then DropSlashes(rest) else rest
  }

  /** The authority: up to the first `/`, `?` or `#` after `scheme://`. */
  function Authority(input: string): string
    requires HasSchemeSlashes(input)
  {
    PrefixBefore(AfterScheme(input), {'/', '?', '#'})
  }

  /**
    An input that `new URL` accepts without a base, in the form modelled
    here. A scheme that skips slashes also needs a non-empty authority.
  */
  predicate IsHierarchical(input: string) {
    HasSchemeSlashes(input) && (SkipsSlashes(SchemeOf(input)) ==> Authority(input) != [])
  }

  /** An href that `new URL(href)` accepts in the form modelled here. */
  predicate IsAbsoluteUrl(href: string) {
    IsHierarchical(Input(href))
  }

  /** Where the path starts in the input: right after the authority. */
  function PathStart(input: string): nat
    requires HasSchemeSlashes(input)
  {
    |input| - |AfterScheme(input)| + |Authority(input)|
  }

  /** The path as written: after the authority, up to the first `?` or `#`. */
  function RawPath(input: string): string
    requires HasSchemeSlashes(input)
  {
    PrefixBefore(AfterScheme(input)[|Authority(input)|..], {'?', '#'})
  }

  /**
    `new URL(href).pathname`: the path component, which is empty or starts
    with `/`, and never holds the query or the fragment.
  */
  function Pathname(href: string): (r: string)
    requires IsAbsoluteUrl(href)
    ensures r == [] || r[0] == '/'
    ensures forall i :: 0 <= i < |r| ==> r[i] != '?' && r[i] != '#'
  {
    var input := Input(href);
    var path := RawPath(input);
    assert path != [] ==> path[0] == AfterScheme(input)[|Authority(input)|];
    if path == [] && IsSpecialScheme(SchemeOf(input)) then "/" else path
  }

  /**
    The path is read from the input right after the authority, up to the end
    of the input or a `?` or `#`. The one exception is the empty path of a
    special scheme, which reads as `/`.
  */
  lemma PathnameInHref(href: string)
    requires IsAbsoluteUrl(href)
    ensures var input := Input(href);
            var path := Pathname(href);
            var start := PathStart(input);
            if RawPath(input) == [] && IsSpecialScheme(SchemeOf(input)) then path == "/"
            else
              && |SchemeOf(input)| + 3 <= start && start + |path| <= |input|
              && input[start..start + |path|] == path
              && (start + |path| == |input| || input[start + |path|] in {'?', '#'})
  {
    var input := Input(href);
    var start := PathStart(input);
    var rest := AfterScheme(input)[|Authority(input)|..];
    assert rest == input[start..];
    var raw := RawPath(input);
    assert raw == rest[..|raw|];
    assert rest[..|raw|] == input[start..start + |raw|];
    assert |raw| < |rest| ==> rest[|raw|] == input[start + |raw|];
  }

  /** Leading stripping keeps the last character unless it is itself stripped. */
  lemma {:induction false} StripStartKeepsLast(s: string)
    requires s != [] && !IsC0OrSpace(s[|s| - 1])
    ensures StripStart(s) != [] && StripStart(s)[|StripStart(s)| - 1] == s[|s| - 1]
  {
    if IsC0OrSpace(s[0]) {
      StripStartKeepsLast(s[1..]);
    }
  }

  /** Stripping the start of `x + y` stops inside `x` once `x` holds something to keep. */
  lemma {:induction false} StripStartAppend(x: string, y: string)
    requires StripStart(x) != []
    ensures StripStart(x + y) == StripStart(x) + y
  {
    if IsC0OrSpace(x[0]) {
      assert (x + y)[1..] == x[1..] + y;
      StripStartAppend(x[1..], y);
    }
  }

  /** Stripping the end of `x + y` stops inside `y` or at the last character of `x`, which is kept. */
  lemma {:induction false} StripEndAppend(x: string, y: string)
    requires x != [] && !IsC0OrSpace(x[|x| - 1])
    ensures StripEnd(x + y) == x + StripEnd(y)
    decreases |y|
  {
    if y != [] && IsC0OrSpace(y[|y| - 1]) {
      assert (x + y)[..|x + y| - 1] == x + y[..|y| - 1];
      StripEndAppend(x, y[..|y| - 1]);
    } else if y == [] {
      assert x + y == x;
    }
  }

  /** Removing tabs and newlines works character by character. */
  lemma {:induction false} RemoveAppend(x: string, y: string)
    ensures RemoveTabsAndNewlines(x + y) == RemoveTabsAndNewlines(x) + RemoveTabsAndNewlines(y)
  {
    if x != [] {
      assert (x + y)[1..] == x[1..] + y;
      RemoveAppend(x[1..], y);
    } else {
      assert x + y == y;
    }
  }

  /** An href without C0 controls or spaces is read as it is. */
  lemma {:induction false} InputOfClean(s: string)
    requires forall i :: 0 <= i < |s| ==> !IsC0OrSpace(s[i])
    ensures Input(s) == s
  {
    assert StripStart(s) == s;
    assert StripEnd(s) == s;
    RemoveOfClean(s);
  }

  lemma {:induction false} RemoveOfClean(s: string)
    requires forall i :: 0 <= i < |s| ==> !IsC0OrSpace(s[i])
    ensures RemoveTabsAndNewlines(s) == s
  {
    if s != [] {
      RemoveOfClean(s[1..]);
    }
  }

  /**
    A delimiter and anything after it, appended to an href that does not end
    in a C0 control or space, are read as that delimiter and the cleaned rest.
  */
  lemma InputAppend(href: string, delimiter: char, suffix: string)
    requires href != [] && !IsC0OrSpace(href[|href| - 1]) && !IsC0OrSpace(delimiter)
    ensures Input(href + [delimiter] + suffix)
            == Input(href) + [delimiter] + RemoveTabsAndNewlines(StripEnd(suffix))
  {
    var kept := StripStart(href);
    StripStartKeepsLast(href);
    var y := [delimiter] + suffix;
    assert href + [delimiter] + suffix == href + y;
    StripStartAppend(href, y);
    var x := kept + [delimiter];
    assert kept + y == x + suffix;
    StripEndAppend(x, suffix);
    assert StripEnd(StripStart(href + [delimiter] + suffix)) == x + StripEnd(suffix);
    StripEndAppend(kept, []);
    assert kept + [] == kept;
    assert StripEnd(StripStart(href)) == kept;
    RemoveAppend(x, StripEnd(suffix));
    RemoveAppend(kept, [delimiter]);
    assert RemoveTabsAndNewlines([delimiter]) == [delimiter] by {
      assert [delimiter][1..] == [];
    }
  }

  /** Leading C0 controls and spaces are all stripped. */
  lemma {:induction false} StripStartPadding(pad: string, x: string)
    requires forall i :: 0 <= i < |pad| ==> IsC0OrSpace(pad[i])
    requires x != [] && !IsC0OrSpace(x[0])
    ensures StripStart(pad + x) == x
  {
    if pad != [] {
      assert (pad + x)[1..] == pad[1..] + x;
      StripStartPadding(pad[1..], x);
    } else {
      assert pad + x == x;
    }
  }

  /** Trailing C0 controls and spaces are all stripped. */
  lemma {:induction false} StripEndPadding(x: string, pad: string)
    requires forall i :: 0 <= i < |pad| ==> IsC0OrSpace(pad[i])
    requires x != [] && !IsC0OrSpace(x[|x| - 1])
    ensures StripEnd(x + pad) == x
    decreases |pad|
  {
    if pad != [] {
      assert (x + pad)[..|x + pad| - 1] == x + pad[..|pad| - 1];
      StripEndPadding(x, pad[..|pad| - 1]);
    } else {
      assert x + pad == x;
    }
  }

  /**
    C0 controls and spaces around an href are stripped before parsing. For
    example, `https://x/a ` has the pathname `/a`.
  */
  lemma SurroundingSpaceIgnored(before: string, href: string, after: string)
    requires forall i :: 0 <= i < |before| ==> IsC0OrSpace(before[i])
    requires forall i :: 0 <= i < |after| ==> IsC0OrSpace(after[i])
    requires href != [] && !IsC0OrSpace(href[0]) && !IsC0OrSpace(href[|href| - 1])
    ensures Input(before + href + after) == Input(href)
    ensures IsAbsoluteUrl(before + href + after) <==> IsAbsoluteUrl(href)
    ensures IsAbsoluteUrl(href) ==> Pathname(before + href + after) == Pathname(href)
  {
    assert before + href + after == before + (href + after);
    StripStartPadding(before, href + after);
    StripEndPadding(href, after);
    assert StripStart(href) == href;
    assert StripEnd(href) == href;
  }

  /**
    A tab or newline inside an href is removed before parsing, so it never
    reaches the pathname.
  */
  lemma TabOrNewlineIgnored(x: string, c: char, y: string)
    requires IsTabOrNewline(c)
    requires x != [] && !IsC0OrSpace(x[0]) && y != [] && !IsC0OrSpace(y[|y| - 1])
    ensures Input(x + [c] + y) == Input(x + y)
    ensures IsAbsoluteUrl(x + [c] + y) <==> IsAbsoluteUrl(x + y)
    ensures IsAbsoluteUrl(x + y) ==> Pathname(x + [c] + y) == Pathname(x + y)
  {
    var s, t := x + [c] + y, x + y;
    assert s[0] == x[0] && s[|s| - 1] == y[|y| - 1];
    assert t[0] == x[0] && t[|t| - 1] == y[|y| - 1];
    StripStartPadding([], s);
    StripEndPadding(s, []);
    StripStartPadding([], t);
    StripEndPadding(t, []);
    assert [] + s == s && s + [] == s && [] + t == t && t + [] == t;
    RemoveTabOrNewline(x, c, y);
  }

  lemma RemoveTabOrNewline(x: string, c: char, y: string)
    requires IsTabOrNewline(c)
    ensures RemoveTabsAndNewlines(x + [c] + y) == RemoveTabsAndNewlines(x + y)
  {
    RemoveAppend(x + [c], y);
    RemoveAppend(x, [c]);
    RemoveAppend(x, y);
    assert RemoveTabsAndNewlines([c]) == [] by {
      assert [c][1..] == [];
    }
  }

  /** Slashes are skipped only at the front, so text after a non-slash is kept as it is. */
  lemma {:induction false} DropSlashesAppend(x: string, y: string)
    requires y == [] || y[0] != '/'
    ensures DropSlashes(x + y) == DropSlashes(x) + y
  {
    if x != [] && x[0] == '/' {
      assert (x + y)[1..] == x[1..] + y;
      DropSlashesAppend(x[1..], y);
    } else if x == [] {
      assert x + y == y;
    }
  }

  /** Text starting with `?` or `#` appended to a hierarchical input keeps its scheme and authority. */
  lemma HierarchicalAppend(input: string, tail: string)
    requires IsHierarchical(input)
    requires tail != [] && (tail[0] == '?' || tail[0] == '#')
    ensures SchemeOf(input + tail) == SchemeOf(input)
    ensures IsHierarchical(input + tail)
    ensures AfterScheme(input + tail) == AfterScheme(input) + tail
    ensures Authority(input + tail) == Authority(input)
  {
    var k := |SchemeOf(input)|;
    PrefixBeforeAppend(input, tail, {':'});
    assert (input + tail)[k..k + 3] == input[k..k + 3];
    assert (input + tail)[k + 3..] == input[k + 3..] + tail;
    DropSlashesAppend(input[k + 3..], tail);
    PrefixBeforeAppend(AfterScheme(input), tail, {'/', '?', '#'});
  }

  /**
    A query or a fragment appended to a URL never reaches its path. The URL
    must not end in a C0 control or space: such a character is stripped from
    the URL alone, but kept in front of an appended query.
  */
  lemma PathnameIgnoresSuffix(href: string, delimiter: char, suffix: string)
    requires href != [] && IsAbsoluteUrl(href) && !IsC0OrSpace(href[|href| - 1])
    requires delimiter == '?' || delimiter == '#'
    ensures IsAbsoluteUrl(href + [delimiter] + suffix)
    ensures Pathname(href + [delimiter] + suffix) == Pathname(href)
  {
    var long := href + [delimiter] + suffix;
    var tail := [delimiter] + RemoveTabsAndNewlines(StripEnd(suffix));
    InputAppend(href, delimiter, suffix);
    assert Input(long) == Input(href) + tail;
    TailNeverReachesPath(Input(href), tail);
    assert IsAbsoluteUrl(long);
    assert RawPath(Input(long)) == RawPath(Input(href));
    assert SchemeOf(Input(long)) == SchemeOf(Input(href));
    PathnameOfInput(href);
    PathnameOfInput(long);
  }

  /** `Pathname` depends on the href only through the scheme and the raw path of its input. */
  lemma PathnameOfInput(href: string)
    requires IsAbsoluteUrl(href)
    ensures var input := Input(href);
            Pathname(href) == if RawPath(input) == [] && IsSpecialScheme(SchemeOf(input)) then "/" else RawPath(input)
  {
  }

  /** The input-level step of `PathnameIgnoresSuffix`. */
  lemma TailNeverReachesPath(input: string, tail: string)
    requires IsHierarchical(input)
    requires tail != [] && (tail[0] == '?' || tail[0] == '#')
    ensures IsHierarchical(input + tail)
    ensures SchemeOf(input + tail) == SchemeOf(input)
    ensures RawPath(input + tail) == RawPath(input)
  {
    HierarchicalAppend(input, tail);
    var after := AfterScheme(input);
    var n := |Authority(input)|;
    assert (after + tail)[n..] == after[n..] + tail;
    PrefixBeforeAppend(after[n..], tail, {'?', '#'});
  }

  /** `scheme://host/path` holds no C0 control or space when host and path hold none. */
  lemma CleanHref(scheme: string, host: string, path: string)
    requires IsScheme(scheme)
    requires forall i :: 0 <= i < |host| ==> !IsC0OrSpace(host[i])
    requires forall i :: 0 <= i < |path| ==> !IsC0OrSpace(path[i])
    ensures var href := scheme + "://" + host + path;
            forall i :: 0 <= i < |href| ==> !IsC0OrSpace(href[i])
  {
    var href := scheme + "://" + host + path;
    forall i | 0 <= i < |href|
      ensures !IsC0OrSpace(href[i])
    {
      if i < |scheme| {
        assert href[i] == scheme[i];
      } else if i < |scheme| + 3 {
        assert href[i] == "://"[i - |scheme|];
      } else if i < |scheme| + 3 + |host| {
        assert href[i] == host[i - |scheme| - 3];
      } else {
        assert href[i] == path[i - |scheme| - 3 - |host|];
      }
    }
  }

  /** `scheme://` followed by anything has that scheme, and what follows `://` is the rest. */
  lemma SchemePart(scheme: string, rest: string)
    requires IsScheme(scheme)
    ensures var input := scheme + "://" + rest;
            && SchemeOf(input) == scheme && HasSchemeSlashes(input)
            && input[|scheme| + 3..] == rest
  {
    var input := scheme + "://" + rest;
    assert input == scheme + ("://" + rest);
    PrefixBeforeExact(scheme, "://" + rest, {':'});
    assert input[|scheme|..|scheme| + 3] == "://";
  }

  /**
    For `scheme://host/path` with no C0 control or space, a host free of `/`,
    `?`, `#`, `:` and a path free of `?`, `#`, the pathname is exactly the
    path: scheme and host are stripped. The host must be non-empty when the
    scheme skips slashes. `ExtraSlashesSkipped` covers the empty host. A `:`
    in the host would bring a port or a Windows drive letter, which this
    model does not read.
  */
  lemma PathnameOfHostAndPath(scheme: string, host: string, path: string)
    requires IsScheme(scheme) && (host != [] || !SkipsSlashes(scheme))
    requires forall i :: 0 <= i < |host| ==> host[i] != '/' && host[i] != '?' && host[i] != '#' && host[i] != ':' && !IsC0OrSpace(host[i])
    requires path != [] && path[0] == '/'
    requires forall i :: 0 <= i < |path| ==> path[i] != '?' && path[i] != '#' && !IsC0OrSpace(path[i])
    ensures IsAbsoluteUrl(scheme + "://" + host + path)
    ensures Pathname(scheme + "://" + host + path) == path
  {
    var href := scheme + "://" + host + path;
    CleanHref(scheme, host, path);
    InputOfClean(href);
    assert href == scheme + "://" + (host + path);
    SchemePart(scheme, host + path);
    HostAndPath(scheme, host, path);
  }

  /**
    A special scheme other than `file` skips every slash after `scheme:`, so
    a third slash changes nothing. For example, `https:///news/recap` reads as
    `https://news/recap`: its host is `news`.
  */
  lemma ExtraSlashesSkipped(scheme: string, rest: string)
    requires IsScheme(scheme) && SkipsSlashes(scheme)
    requires forall i :: 0 <= i < |rest| ==> !IsC0OrSpace(rest[i])
    ensures IsAbsoluteUrl(scheme + ":///" + rest) <==> IsAbsoluteUrl(scheme + "://" + rest)
    ensures IsAbsoluteUrl(scheme + "://" + rest) ==>
              Pathname(scheme + ":///" + rest) == Pathname(scheme + "://" + rest)
  {
    var long, short := scheme + ":///" + rest, scheme + "://" + rest;
    assert long == scheme + "://" + "/" + rest;
    assert short == scheme + "://" + [] + rest;
    CleanHref(scheme, "/", rest);
    CleanHref(scheme, [], rest);
    InputOfClean(long);
    InputOfClean(short);
    SlashSkippedInput(scheme, rest);
    SameReading(long, short);
  }

  /** The input-level step of `ExtraSlashesSkipped`: both inputs have the same scheme and the same text after it. */
  lemma SlashSkippedInput(scheme: string, rest: string)
    requires IsScheme(scheme) && SkipsSlashes(scheme)
    ensures var long, short := scheme + ":///" + rest, scheme + "://" + rest;
            && HasSchemeSlashes(long) && HasSchemeSlashes(short)
            && SchemeOf(long) == SchemeOf(short) && AfterScheme(long) == AfterScheme(short)
  {
    var long, short := scheme + ":///" + rest, scheme + "://" + rest;
    assert long == scheme + "://" + ("/" + rest);
    SchemePart(scheme, "/" + rest);
    SchemePart(scheme, rest);
    assert DropSlashes("/" + rest) == DropSlashes(rest) by {
      assert ("/" + rest)[1..] == rest;
    }
  }

  /** Two hrefs whose inputs have the same scheme and the same text after it are read alike. */
  lemma SameReading(a: string, b: string)
    requires Input(a) == a && Input(b) == b
    requires HasSchemeSlashes(a) && HasSchemeSlashes(b)
    requires SchemeOf(a) == SchemeOf(b) && AfterScheme(a) == AfterScheme(b)
    ensures IsAbsoluteUrl(a) <==> IsAbsoluteUrl(b)
    ensures IsAbsoluteUrl(a) ==> Pathname(a) == Pathname(b)
  {
  }

  lemma HostAndPath(scheme: string, host: string, path: string)
    requires IsScheme(scheme) && (!SkipsSlashes(scheme) || host != [])
    requires forall i :: 0 <= i < |host| ==> host[i] != '/' && host[i] != '?' && host[i] != '#' && host[i] != ':'
    requires path != [] && path[0] == '/'
    requires forall i :: 0 <= i < |path| ==> path[i] != '?' && path[i] != '#'
    requires var input := scheme + "://" + (host + path);
             SchemeOf(input) == scheme && HasSchemeSlashes(input) && input[|scheme| + 3..] == host + path
    ensures var input := scheme + "://" + (host + path);
            IsHierarchical(input) && RawPath(input) == path
  {
    var input := scheme + "://" + (host + path);
    if SkipsSlashes(scheme) {
      assert DropSlashes(host + path) == host + path;
    }
    assert AfterScheme(input) == host + path;
    PrefixBeforeExact(host, path, {'/', '?', '#'});
    assert AfterScheme(input)[|host|..] == path + "";
    PrefixBeforeExact(path, "", {'?', '#'});
  }
}

=== FILE: wrappers.dfy ===
/** Optional values: an attribute, a text content or a sub-element that may be absent. */
module Wrappers {

  datatype Option<+T> = None | Some(value: T)
}
